=== FILE: README.md ===
# ghostmates delivery tracking core, in Dafny

This project models the delivery-tracking core of the `ghostmates` Go client for the
Postmates delivery API. The core has three parts.

- **The deliveries listing** (`GetDeliveries`, `GetOngoingDeliveries` in `client.go`).
  The client walks a cursor-paginated collection. It requests a page, appends the page's
  records and decides whether to stop. It stops when the limit is reached, when the cursor
  is empty, or when the page is empty. It then cuts the result to the limit. Any failure
  aborts the call and returns no records.
- **The webhook dispatcher** (`NewWebhook` and its handler in `webhook.go`). The handler
  gates on the `POST` method and reads at most 64 KiB of the body. It decodes in two
  phases: first only the `kind` tag, then the variant that tag selects. Each accepted event
  goes to its own kind's buffered channel by a non-blocking send, and is dropped when that
  channel is full.
- **The structured API error** (`NewError`, `(*Error).Error` in `errors.go`). This is the
  value the client returns for every non-200 response.

Modules:

| file | module | models |
|---|---|---|
| `base.dfy` | `Base`, `Http` | `Option`/`Result`, bytes, the HTTP response and status codes |
| `decimal.dfy` | `Decimal` | the numerals Go's `%d` prints, and a parser that reads them back |
| `records.dfy` | `Records` | the `Delivery` and `Deliveries` (page) records |
| `api_errors.dfy` | `ApiErrors` | `NewError` and the `Error()` string |
| `pagination.dfy` | `Pagination` | the listing loop, its request trace and its connection events |
| `webhook.dfy` | `Webhook` | the request classifier, the four queues, consumer receives |

Modelling choices:

- **Listing: server and decoders.** The server is the oracle `Remote.get` from URL to reply.
  A reply is either a transport failure or a response. The page decoder and the error-body
  decoder are also oracles. `url.QueryEscape` is the client's `escape` function.
- **Listing: the loop.** `Paginate` is the loop written as a recursive function. Its `fuel`
  parameter caps the number of requests. A `Run` records the outcome and every URL
  requested.
- **Listing: reference definition.** Each property is stated against `Collected` (the
  records of the requested pages, in request order) and `FollowsCursors` (each request's
  page continued the loop and handed over the next URL).
- **Listing: connection events.** `Exchange` gives each request's events, branch by branch
  as `Fetch` classifies the reply. A transport failure gives only the GET. A non-200
  response gives the GET, the read of its body by `NewError`, then the deferred close. A
  200 response gives the GET, the read by the page decoder, then the explicit close,
  whether or not the page decoded. `IoTrace` strings these together for a whole run.
- **Webhook: channels.** Each Go channel is a `Queue` with a capacity and its items, oldest
  first. One request is one atomic step: `Handle` maps (queues, request) to
  (response, queues). `http.Error` writes its message followed by a newline.
- **Webhook: decoders and consumers.** JSON decoding is five oracles, held in `Decoders`.
  A consumer receive is `Dequeue`, which polls: it returns nothing on an empty queue.
- **Errors.** The error-body decoder returns the fields it managed to fill. `%v` of the
  params map is `map[k:v ...]`, with each value already rendered.

Behaviours of the code worth knowing:

- An over-long body is cut to 64 KiB and then decoded, not rejected.
- The unknown-kind response is the fixed text "unsupported event kind"; it does not name the
  kind.
- A limit of 0 still requests one page (the loop body runs before the exit test), and any
  error on that page is still returned.
- A limit below -1 is outside the code's domain. The loop stops after the first page and,
  when that page decoded, panics at `da[:n]`. `GetDeliveries` therefore requires
  `n >= AllDeliveries`.

## Model

| member | source | states |
|---|---|---|
| Pagination.Fetch | client.go:275-292 | one request ends in a page exactly when a 200 response decodes. Otherwise it aborts with the transport's own error, or with `NewError` of the response and its error-body decoder for a non-200 status, or with the page decoder's own error |
| Pagination.Paginate | client.go:274-303 | the loop issues at most one request per unit of fuel, the first to the given URL, and runs out of fuel only after using all of it |
| Pagination.PaginateFollowsCursors | client.go:298-302 | every request but the last returned a page that did not meet the exit test, and the next request targets that page's cursor verbatim |
| Pagination.PaginateSucceeds | client.go:294-309 | a successful loop ends on a page that meets the exit test and returns everything accumulated, in server order, cut to the limit |
| Pagination.PaginateFails | client.go:275-289 | a failed loop returns the error of its last request |
| Pagination.PaginateExhausts | client.go:298 | running out of fuel means the last page asked the loop to continue |
| Pagination.GetDeliveries | client.go:263-311 | first request to the base URL; cursors followed; on success the records of all requested pages in order, all of them for AllDeliveries and the first min(n, total) for n >= 0, and fewer than n only when the last page ended the collection; on failure the error of the last request |
| Pagination.GetOngoingDeliveries | client.go:259-261 | the listing whose first request asks for filter=ongoing, with cursors followed; on success the records of all requested pages in order cut to the limit, on failure the error of its last request |
| Pagination.ErrorEndsListing | client.go:275-289 | a request that yields no page is the last one, and the call fails with its error, discarding every record accumulated before it |
| Pagination.LimitBoundsRequests | client.go:298 | with a finite limit the loop requests at most max(1, n) pages |
| Pagination.LimitedListingTerminates | client.go:298 | with a finite limit, max(1, n) requests always suffice for the loop to finish |
| Pagination.MoreFuelSameRun | client.go:274-303 | once a run finishes, more fuel does not change it |
| Pagination.LimitIsPrefixOfAll | client.go:305-307 | a limit n returns the first n records of the unlimited listing, with no more requests |
| Pagination.CursorCycleNeverEnds | client.go:296-298 | without a limit, a non-empty page whose cursor points to itself keeps the loop going for as long as any fuel remains |
| Pagination.ThreePagesOfTwo | client.go:294-309 | three pages of two records with an empty last cursor give three requests and the six records in order |
| Pagination.OneBodyAtATime | client.go:275-292 | over a whole listing call, the GETs are exactly the requests made, in order. At most one response body is open at any time, each body is read while open, none is open when a request is issued, and none is left open, on success and on every error path |
| ApiErrors.NewError | errors.go:35-42 | the status code and status line always come from the response, whatever the body decoder produced |
| ApiErrors.ErrorString | errors.go:44-51 | the message starts with the header; it is exactly the header iff Kind is empty, and otherwise the details follow it |
| ApiErrors.StatusCodeRecoverable | errors.go:46 | the status code can be read back out of every message |
| ApiErrors.NewErrorReportsStatus | errors.go:35-46 | the message of an error built from a response names that response's code and status line, for any body decoder |
| ApiErrors.UndecodableBodyGivesHeaderOnly | errors.go:39-50 | a body the decoder cannot read gives a message with no details |
| ApiErrors.AddressUndeliverableMessage | errors_test.go:37 | the exact message for a 400 address_undeliverable error with empty params |
| Decimal.NatToString | errors.go:46 | `%d` of a non-negative int is a non-empty digit string with no leading zero |
| Decimal.IntToString | errors.go:46 | `%d` of an int starts with a minus sign exactly when it is negative |
| Decimal.ValueOfNatToString | errors.go:46 | a printed numeral reads back as the number |
| Decimal.ParseLeadingIntOfNumeral | errors.go:46 | a printed int followed by a non-digit parses back to that int |
| Webhook.KindOf | webhook.go:125-171 | a recognised tag is the tag of the kind it selects |
| Webhook.KindOfRecognisesExactlyTheTags | webhook.go:76-79 | exactly the four kind constants are recognised, each as its own kind |
| Webhook.NewWebhook | webhook.go:90-104 | four empty queues, each with the buffer length as capacity |
| Webhook.ReadLimited | webhook.go:111-115 | at most the first 65536 bytes are read; a read error counts only if it occurs before the cap, and is then returned as it is |
| Webhook.DecodeVariant | webhook.go:125-164 | the variant decoder the kind selects decides the outcome: success exactly when it succeeds, its value wrapped as that kind's event, and otherwise its own error |
| Webhook.Admit | webhook.go:106-178 | non-POST gives 405. A request is admitted iff it is a POST whose capped body reads without error, sniffs to a recognised tag and decodes as that variant. Every rejected POST gives 400 with the text of what rejected it: the read error before the cap, the tag decoder's error, "unsupported event kind", or the variant decoder's error |
| Webhook.Deliver | webhook.go:132-169 | the event goes only to its own kind's queue: appended at the tail when there is room, dropped when full; other queues and all capacities are unchanged |
| Webhook.Handle | webhook.go:106-180 | 200 with an empty body iff admitted. Otherwise it answers exactly the rejection `Admit` gives (its code and its newline-terminated text) with no queue change. A full queue drops the event and still answers 200, and queue bounds are kept |
| Webhook.AcceptedEventIsQueued | webhook.go:106-169 | a POST whose body reads, sniffs to kind k's tag and decodes is answered 200. The decoded event joins the tail of k's queue when there is room and is dropped when it is full. No other queue changes |
| Webhook.CourierUpdateIsQueued | webhook.go:148-158 | a courier update the courier decoder accepts reaches the courier queue, wrapped as a courier event, with a 200 answer |
| Webhook.LongBodyIsCut | webhook.go:111 | a body longer than the cap is handled exactly as its first 65536 bytes |
| Webhook.UnknownKindRejected | webhook.go:170-172 | a tag that is none of the four gives 400 "unsupported event kind" and no queue change |
| Webhook.Dequeue | example/main.go:38-46 | a receive takes the head of its own queue and touches no other queue |
| Webhook.FifoPerKind | webhook.go:132-169 | per kind, the events consumers receive plus those still waiting are the events that were waiting plus those accepted, in order |
| Webhook.ReplayKeepsBounds | webhook.go:132-136 | no run of requests and receives ever overfills a queue |

## Left out

- transport.go and `NewClient`: host and scheme rewrite, basic auth, the version header and the timeout. These are plumbing over the HTTP library; the model's `Remote.get` stands for the whole transport.
- `GetQuote`, `CreateDelivery`, `GetDelivery`, `CancelDelivery`, `ReturnDelivery`: each is one request. Their only logic is the error path `Fetch` already models: transport error, then `NewError` on non-200, then decode.
- JSON decoding, `url.QueryEscape` and `time.Time` parsing: these are library code. They are oracles or opaque functions here, and timestamps are kept as text.
- The `float64` latitude and longitude: represented as `real`, and never inspected.
- `TotalCount`: decoded but never consulted, so it plays no part in the loop.
- Most `Delivery` business fields (addresses, fees, courier): the core never reads them.
- Go's `nil` versus empty slice: both are the empty sequence.
- example/main.go: an HTTP server, a network call and goroutine consumers. Only the receive is modelled, as `Dequeue`.
- Concurrent interleaving: each request and each receive is one atomic step.
- The response headers `http.Error` sets (content type, nosniff): not modelled.
- Pagination.Paginate: the loop carries a `fuel` bound on the number of requests. A listing needing more requests ends in `OutOfFuel`, which the Go loop does not have. `LimitedListingTerminates` shows finite limits never need more than max(1, n) requests. `CursorCycleNeverEnds` shows the unlimited listing can genuinely run forever.
- The server is a fixed function of the URL: a collection that changes between page requests is not modelled.
- ApiErrors.ParamsToString: takes the params in the order `%v` prints them (fmt sorts map keys), with each value already rendered. The sorting and the rendering of arbitrary JSON values are not modelled.
- Webhook.Dequeue: polls instead of blocking on an empty channel. A channel of capacity 0 therefore always drops, whereas Go would hand the event to a receiver already waiting.

=== FILE: api_errors.dfy ===
/** The structured error the client returns for every non-200 response, and
    its text rendering. */
module ApiErrors {
  import opened Base
  import opened Decimal
  import Http

  const ErrorKind := "error"

  const ErrorCodeAddressUndeliverable := "address_undeliverable"

  /** One entry of the `params` object, its value already rendered by `%v`.
      A sequence of them is listed in the order `%v` prints a map. */
  datatype Param = Param(key: string, value: string)

  /** The JSON-decodable part of an error body. */
  datatype ErrorFields = ErrorFields(kind: string, code: string, message: string, params: seq<Param>)

  /** What the decoder leaves behind when the body is not JSON at all. */
  const NoFields := ErrorFields("", "", "", [])

  datatype ApiError = ApiError(
    statusCode: int,
    status: string,
    kind: string,
    code: string,
    message: string,
    params: seq<Param>)
  {
    function Fields(): ErrorFields
    {
      ErrorFields(kind, code, message, params)
    }
  }

  /** Builds the error from a response. `decode` yields the fields the JSON
      decoder managed to fill (NoFields when it failed outright); its own
      error is discarded, and it can never reach the status fields, which the
      decoder ignores. */
  function NewError(resp: Http.Response, decode: Bytes -> ErrorFields): (e: ApiError)
    ensures e.statusCode == resp.statusCode && e.status == resp.status
    ensures e.Fields() == decode(resp.body)
  {
    var f := decode(resp.body);
    ApiError(resp.statusCode, resp.status, f.kind, f.code, f.message, f.params)
  }

  const Prefix := "Postmates API Error ("

  /** The part of the message that is always present. */
  function Header(e: ApiError): string
  {
    Prefix + (IntToString(e.statusCode) + (" " + e.status + ")"))
  }

  /** `%v` of the params map: "map[k1:v1 k2:v2]". */
  function ParamsToString(ps: seq<Param>): string
  {
    "map[" + JoinParams(ps) + "]"
  }

  function JoinParams(ps: seq<Param>): string
  {
    if ps == [] then ""
    else if |ps| == 1 then ps[0].key + ":" + ps[0].value
    else ps[0].key + ":" + ps[0].value + " " + JoinParams(ps[1..])
  }

  /** The part of the message present only when the body named a kind. */
  function Details(e: ApiError): (s: string)
    ensures |s| > 0
  {
    " Kind: " + e.kind + ", Code: " + e.code + ", Message: " + e.message
      + ", Params: " + ParamsToString(e.params)
  }

  /** The `Error()` string: the header, then the details exactly when `kind`
      is non-empty. */
  function ErrorString(e: ApiError): (s: string)
    ensures Header(e) <= s
    ensures s == Header(e) <==> e.kind == ""
    ensures e.kind != "" ==> s[|Header(e)|..] == Details(e)
  {
    if |e.kind| > 0 then Header(e) + Details(e) else Header(e)
  }

  /** Reads the status code back out of an error message. */
  function StatusCodeOf(message: string): Option<int>
  {
    if Prefix <= message then ParseLeadingInt(message[|Prefix|..]) else None
  }

  /** Every message carries the status code it was built from. */
  lemma StatusCodeRecoverable(e: ApiError)
    ensures StatusCodeOf(ErrorString(e)) == Some(e.statusCode)
  {
    var s := ErrorString(e);
    var num := IntToString(e.statusCode);
    var rest := s[|Header(e)|..];
    var tail := (" " + e.status + ")") + rest;
    HeaderThenRest(Header(e), s);
    Associate(Prefix, num + (" " + e.status + ")"), rest);
    Associate(num, " " + e.status + ")", rest);
    DropPrefix(Prefix, num + tail);
    ParseLeadingIntOfNumeral(e.statusCode, tail);
  }

  lemma Associate(a: string, b: string, c: string)
    ensures (a + b) + c == a + (b + c)
  {
  }

  lemma HeaderThenRest(h: string, s: string)
    requires h <= s
    ensures s == h + s[|h|..]
  {
  }

  lemma DropPrefix(a: string, b: string)
    ensures a <= a + b && (a + b)[|a|..] == b
  {
  }

  /** Whatever the body decoder produced, the message of the error built from
      a response names that response's status code and status line. */
  lemma NewErrorReportsStatus(resp: Http.Response, decode: Bytes -> ErrorFields)
    ensures Prefix + (IntToString(resp.statusCode) + (" " + resp.status + ")")) <= ErrorString(NewError(resp, decode))
    ensures StatusCodeOf(ErrorString(NewError(resp, decode))) == Some(resp.statusCode)
  {
    StatusCodeRecoverable(NewError(resp, decode));
  }

  /** A body the decoder cannot read leaves a bare header. */
  lemma UndecodableBodyGivesHeaderOnly(resp: Http.Response, decode: Bytes -> ErrorFields)
    requires decode(resp.body) == NoFields
    ensures ErrorString(NewError(resp, decode)) == Prefix + (IntToString(resp.statusCode) + (" " + resp.status + ")"))
  {
  }

  /** The message for an undeliverable address, as the server reports it:
      "Postmates API Error (400 400 BAD REQUEST) Kind: error, Code:
      address_undeliverable, Message: The specified location is not in a
      deliverable area., Params: map[]" (split below at the format's verbs). */
  lemma AddressUndeliverableMessage()
    ensures ErrorString(ApiError(400, "400 BAD REQUEST", ErrorKind, ErrorCodeAddressUndeliverable,
                                 "The specified location is not in a deliverable area.", []))
         == "Postmates API Error (" + ("400" + (" " + "400 BAD REQUEST" + ")"))
            + (" Kind: " + "error" + ", Code: " + "address_undeliverable"
               + ", Message: " + "The specified location is not in a deliverable area."
               + ", Params: " + "map[]")
  {
    var e := ApiError(400, "400 BAD REQUEST", ErrorKind, ErrorCodeAddressUndeliverable,
                      "The specified location is not in a deliverable area.", []);
    BadRequestHeader(e);
    assert ParamsToString([]) == "map[]";
    assert ErrorString(e) == Header(e) + Details(e);
  }

  lemma BadRequestHeader(e: ApiError)
    requires e.statusCode == 400 && e.status == "400 BAD REQUEST"
    ensures Header(e) == "Postmates API Error (" + ("400" + (" " + "400 BAD REQUEST" + ")"))
  {
    FourHundred();
  }

  lemma FourHundred()
    ensures IntToString(400) == "400"
  {
    assert NatToString(4) == "4";
    assert NatToString(40) == "40";
  }
}

=== FILE: base.dfy ===
/** Failure-carrying wrappers and raw byte strings shared by every module. */
module Base {

  /** An optional value: Go's "nil or a value". */
  datatype Option<T> = None | Some(value: T)

  /** A value or the error that replaced it: Go's `(T, error)` return pair. */
  datatype Result<T, E> = Success(value: T) | Failure(error: E)

  newtype byte = x: int | 0 <= x < 0x100

  /** An HTTP body as read from the wire. */
  type Bytes = seq<byte>

  function Min(a: int, b: int): int
  {
    if a <= b then a else b
  }

  function Max(a: int, b: int): int
  {
    if a <= b then b else a
  }
}

/** The parts of an HTTP exchange the core inspects. */
module Http {
  import opened Base

  const StatusOK := 200
  const StatusBadRequest := 400
  const StatusMethodNotAllowed := 405

  /** A response received by the client: the numeric code, the status line
      (for instance "400 BAD REQUEST") and the raw body. */
  datatype Response = Response(statusCode: int, status: string, body: Bytes)
}

=== FILE: decimal.dfy ===
/** Decimal numerals, as Go's `%d` verb prints an `int`, and the parser that
    reads one back. */
module Decimal {
  import opened Base

  predicate IsDigit(c: char)
  {
    '0' <= c <= '9'
  }

  predicate AllDigits(s: string)
  {
    forall i :: 0 <= i < |s| ==> IsDigit(s[i])
  }

  function DigitChar(d: nat): (c: char)
    requires d < 10
    ensures IsDigit(c) && DigitValue(c) == d
  {
    ('0' as int + d) as char
  }

  function DigitValue(c: char): nat
    requires IsDigit(c)
  {
    c as int - '0' as int
  }

  /** The numeral of `n`: non-empty, digits only, no leading zero. */
  function NatToString(n: nat): (s: string)
    ensures |s| > 0 && AllDigits(s)
    ensures s[0] == '0' ==> n == 0 && |s| == 1
    decreases n
  {
    if n < 10 then [DigitChar(n)] else NatToString(n / 10) + [DigitChar(n % 10)]
  }

  /** `%d` of any `int`: a minus sign exactly for negative values. */
  function IntToString(i: int): (s: string)
    ensures |s| > 0
    ensures s[0] == '-' <==> i < 0
    ensures AllDigits(s[1..])
  {
    if i < 0 then "-" + NatToString(-i) else NatToString(i)
  }

  /** The number a string of digits denotes. */
  function Value(s: string): nat
    requires AllDigits(s)
    decreases |s|
  {
    if s == [] then 0 else 10 * Value(s[..|s| - 1]) + DigitValue(s[|s| - 1])
  }

  /** Reading the numeral back gives the number. */
  lemma {:induction false} ValueOfNatToString(n: nat)
    ensures Value(NatToString(n)) == n
    decreases n
  {
    if n >= 10 {
      var s := NatToString(n / 10);
      var t := s + [DigitChar(n % 10)];
      assert t[..|t| - 1] == s;
      ValueOfNatToString(n / 10);
    }
  }

  /** The longest run of digits at the start of `s`. */
  function LeadingDigits(s: string): (d: string)
    ensures d <= s && AllDigits(d)
    ensures |d| < |s| ==> !IsDigit(s[|d|])
  {
    if s == [] || !IsDigit(s[0]) then [] else [s[0]] + LeadingDigits(s[1..])
  }

  /** A numeral followed by a non-digit is read back whole. */
  lemma {:induction false} LeadingDigitsOfNumeral(d: string, t: string)
    requires AllDigits(d)
    requires t == [] || !IsDigit(t[0])
    ensures LeadingDigits(d + t) == d
    decreases |d|
  {
    if d != [] {
      assert (d + t)[1..] == d[1..] + t;
      LeadingDigitsOfNumeral(d[1..], t);
    }
  }

  /** Reads an optionally signed numeral from the start of `s`. */
  function ParseLeadingInt(s: string): Option<int>
  {
    if |s| > 0 && s[0] == '-' then
      match ParseLeadingNat(s[1..])
      case Some(m) => Some(0 - m as int)
      case None => None
    else ParseLeadingNat(s)
  }

  function ParseLeadingNat(s: string): Option<nat>
  {
    var digits := LeadingDigits(s);
    if |digits| == 0 then None else Some(Value(digits))
  }

  lemma ParseLeadingNatOfNumeral(n: nat, t: string)
    requires t == [] || !IsDigit(t[0])
    ensures ParseLeadingNat(NatToString(n) + t) == Some(n)
  {
    LeadingDigitsOfNumeral(NatToString(n), t);
    ValueOfNatToString(n);
  }

  /** A minus sign, then a numeral, then a non-digit. */
  lemma ParseNegativeNumeral(s: string, m: nat, t: string)
    requires t == [] || !IsDigit(t[0])
    requires |s| > 0 && s[0] == '-' && s[1..] == NatToString(m) + t
    ensures ParseLeadingInt(s) == Some(0 - m)
  {
    ParseLeadingNatOfNumeral(m, t);
  }

  /** A numeral, then a non-digit. */
  lemma ParseNonNegativeNumeral(s: string, n: nat, t: string)
    requires t == [] || !IsDigit(t[0])
    requires s == NatToString(n) + t
    ensures ParseLeadingInt(s) == Some(n)
  {
    assert IsDigit(s[0]);
    ParseLeadingNatOfNumeral(n, t);
  }

  /** `%d` of any int, followed by a non-digit, parses back to that int. */
  lemma ParseLeadingIntOfNumeral(i: int, t: string)
    requires t == [] || !IsDigit(t[0])
    ensures ParseLeadingInt(IntToString(i) + t) == Some(i)
  {
    var s := IntToString(i) + t;
    if i < 0 {
      var d := NatToString(-i);
      assert IntToString(i) == ['-'] + d;
      assert s[1..] == d + t;
      ParseNegativeNumeral(s, -i, t);
    } else {
      ParseNonNegativeNumeral(s, i, t);
    }
  }
}

=== FILE: pagination.dfy ===
/** The cursor-following deliveries listing: `GetDeliveries` and its wrapper. */
module Pagination {
  import opened Base
  import opened Records
  import Http
  import ApiErrors

  const OngoingFilter := "ongoing"
  const AllFilter := ""

  /** The limit that means "every page". */
  const AllDeliveries := -1

  /** A client: the customer it acts for and the query escaper it applies to
      path and query values. */
  datatype Client = Client(customerId: string, escape: string -> string)

  /** What one GET yields: a transport failure, or a response. */
  datatype Reply = NoResponse(cause: string) | Answered(resp: Http.Response)

  /** The server and the decoders, as seen from the client: a GET per URL, the
      page decoder and the error-body decoder. */
  datatype Remote = Remote(
    get: string -> Reply,
    decodePage: Bytes -> Result<Deliveries, string>,
    decodeError: Bytes -> ApiErrors.ErrorFields)

  datatype ClientError =
    | TransportError(cause: string)
    | StatusError(apiErr: ApiErrors.ApiError)
    | DecodeError(cause: string)

  /** One loop iteration's fetch: a decoded page or the error that ends the call. */
  datatype Step = Page(page: Deliveries) | Abort(err: ClientError)

  /** `OutOfFuel` means the call needed more requests than the model allowed. */
  datatype Outcome = Fetched(deliveries: seq<Delivery>) | Failed(err: ClientError) | OutOfFuel

  /** The outcome and every URL requested, in order. */
  datatype Run = Run(outcome: Outcome, requests: seq<string>)

  /** The first page's URL. */
  function BaseUrl(c: Client, filter: string): string
  {
    "/v1/customers/" + c.escape(c.customerId) + "/deliveries?filter=" + c.escape(filter)
  }

  /** Requests one page and classifies what came back. */
  function Fetch(remote: Remote, u: string): (s: Step)
    ensures s.Page? <==> remote.get(u).Answered? && remote.get(u).resp.statusCode == Http.StatusOK
                         && remote.decodePage(remote.get(u).resp.body).Success?
    ensures s.Page? ==> s.page == remote.decodePage(remote.get(u).resp.body).value
    ensures s.Abort? && s.err.TransportError? <==> remote.get(u).NoResponse?
    ensures s.Abort? && s.err.StatusError? <==>
              remote.get(u).Answered? && remote.get(u).resp.statusCode != Http.StatusOK
    ensures s.Abort? && s.err.StatusError? ==>
              s.err.apiErr.statusCode == remote.get(u).resp.statusCode
              && s.err.apiErr.status == remote.get(u).resp.status
    ensures s.Abort? && s.err.TransportError? ==> s.err.cause == remote.get(u).cause
    ensures s.Abort? && s.err.StatusError? ==>
              s.err.apiErr == ApiErrors.NewError(remote.get(u).resp, remote.decodeError)
    ensures s.Abort? && s.err.DecodeError? <==>
              remote.get(u).Answered? && remote.get(u).resp.statusCode == Http.StatusOK
              && remote.decodePage(remote.get(u).resp.body).Failure?
    ensures s.Abort? && s.err.DecodeError? ==>
              s.err.cause == remote.decodePage(remote.get(u).resp.body).error
  {
    match remote.get(u)
    case NoResponse(cause) => Abort(TransportError(cause))
    case Answered(resp) =>
      if resp.statusCode != Http.StatusOK then
        Abort(StatusError(ApiErrors.NewError(resp, remote.decodeError)))
      else
        match remote.decodePage(resp.body)
        case Failure(cause) => Abort(DecodeError(cause))
        case Success(page) => Page(page)
  }

  /** The page says the collection ends here. */
  predicate Exhausted(page: Deliveries)
  {
    page.nextHref == "" || page.data == []
  }

  /** The loop's exit test, after `total` records have been accumulated. */
  predicate Stops(n: int, total: nat, page: Deliveries)
  {
    (n != AllDeliveries && total >= n) || |page.nextHref| == 0 || |page.data| == 0
  }

  /** The final cut to at most `n` records. */
  function Truncate(ds: seq<Delivery>, n: int): seq<Delivery>
    requires n >= AllDeliveries
  {
    if n != AllDeliveries && |ds| > n then ds[..n] else ds
  }

  function DataOf(s: Step): seq<Delivery>
  {
    if s.Page? then s.page.data else []
  }

  /** The records of the pages at `urls`, in request order. */
  function Collected(remote: Remote, urls: seq<string>): seq<Delivery>
  {
    if urls == [] then [] else DataOf(Fetch(remote, urls[0])) + Collected(remote, urls[1..])
  }

  /** The request to `u` returned a page that does not end the loop, with
      `total` records accumulated after it, and its cursor is `next`. */
  predicate Advances(remote: Remote, n: int, total: nat, u: string, next: string)
  {
    var s := Fetch(remote, u);
    s.Page? && !Stops(n, total, s.page) && s.page.nextHref == next
  }

  /** Every request but the last advanced to exactly the cursor the next
      request used. */
  predicate FollowsCursors(remote: Remote, n: int, acc: seq<Delivery>, urls: seq<string>)
  {
    forall i :: 0 <= i < |urls| - 1 ==>
      Advances(remote, n, |acc + Collected(remote, urls[..i + 1])|, urls[i], urls[i + 1])
  }

  lemma CollectedCons(remote: Remote, u: string, rest: seq<string>, i: nat)
    requires i <= |rest|
    ensures Collected(remote, ([u] + rest)[..i + 1]) == DataOf(Fetch(remote, u)) + Collected(remote, rest[..i])
  {
    assert ([u] + rest)[..i + 1] == [u] + rest[..i];
    assert ([u] + rest[..i])[1..] == rest[..i];
  }

  /** The loop from `u` on, with `acc` accumulated so far and at most `fuel`
      further requests: one request per iteration, the first to `u`. */
  function Paginate(remote: Remote, u: string, n: int, acc: seq<Delivery>, fuel: nat): (r: Run)
    requires n >= AllDeliveries
    ensures |r.requests| <= fuel
    ensures r.outcome.OutOfFuel? ==> |r.requests| == fuel
    ensures fuel > 0 ==> |r.requests| > 0 && r.requests[0] == u
    decreases fuel
  {
    if fuel == 0 then Run(OutOfFuel, [])
    else
      match Fetch(remote, u)
      case Abort(e) => Run(Failed(e), [u])
      case Page(p) =>
        var acc' := acc + p.data;
        if Stops(n, |acc'|, p) then Run(Fetched(Truncate(acc', n)), [u])
        else
          var rest := Paginate(remote, p.nextHref, n, acc', fuel - 1);
          Run(rest.outcome, [u] + rest.requests)
  }

  /** Each request after the first targets the previous page's cursor,
      verbatim, and is issued only when that page did not end the loop. */
  lemma {:induction false} PaginateFollowsCursors(remote: Remote, u: string, n: int, acc: seq<Delivery>, fuel: nat)
    requires n >= AllDeliveries
    ensures FollowsCursors(remote, n, acc, Paginate(remote, u, n, acc, fuel).requests)
    decreases fuel
  {
    if fuel > 0 && Fetch(remote, u).Page? {
      var p := Fetch(remote, u).page;
      var acc' := acc + p.data;
      if !Stops(n, |acc'|, p) {
        var rest := Paginate(remote, p.nextHref, n, acc', fuel - 1).requests;
        var urls := [u] + rest;
        PaginateFollowsCursors(remote, p.nextHref, n, acc', fuel - 1);
        forall i | 0 <= i < |urls| - 1
          ensures Advances(remote, n, |acc + Collected(remote, urls[..i + 1])|, urls[i], urls[i + 1])
        {
          CollectedCons(remote, u, rest, i);
          assert acc + Collected(remote, urls[..i + 1]) == acc' + Collected(remote, rest[..i]);
          if i > 0 {
            assert urls[i] == rest[i - 1] && urls[i + 1] == rest[i];
            assert Advances(remote, n, |acc' + Collected(remote, rest[..i])|, rest[i - 1], rest[i]);
          } else {
            assert Collected(remote, rest[..0]) == [];
          }
        }
      }
    }
  }

  /** The records of `[u] + rest` are the first page's followed by the rest's. */
  lemma CollectedFirst(remote: Remote, u: string, rest: seq<string>)
    ensures Collected(remote, [u] + rest) == DataOf(Fetch(remote, u)) + Collected(remote, rest)
  {
    assert ([u] + rest)[1..] == rest;
  }

  /** A successful loop ends on a page that satisfies the exit test, and returns
      everything accumulated, cut to the limit. */
  lemma {:induction false} PaginateSucceeds(remote: Remote, u: string, n: int, acc: seq<Delivery>, fuel: nat)
    requires n >= AllDeliveries
    requires Paginate(remote, u, n, acc, fuel).outcome.Fetched?
    ensures var r := Paginate(remote, u, n, acc, fuel);
            var total := acc + Collected(remote, r.requests);
            && |r.requests| > 0
            && Fetch(remote, r.requests[|r.requests| - 1]).Page?
            && Stops(n, |total|, Fetch(remote, r.requests[|r.requests| - 1]).page)
            && r.outcome.deliveries == Truncate(total, n)
    decreases fuel
  {
    var p := Fetch(remote, u).page;
    var acc' := acc + p.data;
    if Stops(n, |acc'|, p) {
      CollectedFirst(remote, u, []);
    } else {
      var next := Paginate(remote, p.nextHref, n, acc', fuel - 1);
      var rest := next.requests;
      assert Paginate(remote, u, n, acc, fuel) == Run(next.outcome, [u] + rest);
      PaginateSucceeds(remote, p.nextHref, n, acc', fuel - 1);
      CollectedFirst(remote, u, rest);
      assert acc + Collected(remote, [u] + rest) == acc' + Collected(remote, rest);
      assert ([u] + rest)[|rest|] == rest[|rest| - 1];
    }
  }

  /** A failing loop fails with the error of its last request. */
  lemma {:induction false} PaginateFails(remote: Remote, u: string, n: int, acc: seq<Delivery>, fuel: nat)
    requires n >= AllDeliveries
    requires Paginate(remote, u, n, acc, fuel).outcome.Failed?
    ensures var r := Paginate(remote, u, n, acc, fuel);
            |r.requests| > 0 && Fetch(remote, r.requests[|r.requests| - 1]) == Abort(r.outcome.err)
    decreases fuel
  {
    if Fetch(remote, u).Page? {
      var p := Fetch(remote, u).page;
      var acc' := acc + p.data;
      var rest := Paginate(remote, p.nextHref, n, acc', fuel - 1).requests;
      PaginateFails(remote, p.nextHref, n, acc', fuel - 1);
      assert ([u] + rest)[|rest|] == rest[|rest| - 1];
    }
  }

  /** Running out of fuel means the last page asked for one more. */
  lemma {:induction false} PaginateExhausts(remote: Remote, u: string, n: int, acc: seq<Delivery>, fuel: nat)
    requires n >= AllDeliveries
    requires fuel > 0 && Paginate(remote, u, n, acc, fuel).outcome.OutOfFuel?
    ensures var r := Paginate(remote, u, n, acc, fuel);
            var last := Fetch(remote, r.requests[fuel - 1]);
            last.Page? && !Stops(n, |acc + Collected(remote, r.requests)|, last.page)
    decreases fuel
  {
    var p := Fetch(remote, u).page;
    var acc' := acc + p.data;
    var rest := Paginate(remote, p.nextHref, n, acc', fuel - 1).requests;
    CollectedFirst(remote, u, rest);
    if fuel > 1 {
      PaginateExhausts(remote, p.nextHref, n, acc', fuel - 1);
      assert ([u] + rest)[fuel - 1] == rest[fuel - 2];
    } else {
      assert Collected(remote, []) == [];
    }
  }

  lemma EarlierRequestsArePages(remote: Remote, n: int, acc: seq<Delivery>, urls: seq<string>, i: nat)
    requires FollowsCursors(remote, n, acc, urls)
    requires i < |urls| - 1
    ensures Fetch(remote, urls[i]).Page?
  {
    assert Advances(remote, n, |acc + Collected(remote, urls[..i + 1])|, urls[i], urls[i + 1]);
  }

  /** The record list for `filter`, at most `n` of them (`AllDeliveries`: no
      cap). Limits below `AllDeliveries` are refused: the loop stops after the
      first page and, when that page decoded, the final slice panics. */
  function GetDeliveries(c: Client, remote: Remote, filter: string, n: int, fuel: nat): (r: Run)
    requires n >= AllDeliveries
    ensures fuel > 0 ==> |r.requests| > 0 && r.requests[0] == BaseUrl(c, filter)
    ensures FollowsCursors(remote, n, [], r.requests)
    ensures r.outcome.Fetched? ==>
              && |r.requests| > 0
              && Fetch(remote, r.requests[|r.requests| - 1]).Page?
              && Stops(n, |Collected(remote, r.requests)|, Fetch(remote, r.requests[|r.requests| - 1]).page)
              && r.outcome.deliveries == Truncate(Collected(remote, r.requests), n)
    ensures r.outcome.Fetched? && n == AllDeliveries ==>
              r.outcome.deliveries == Collected(remote, r.requests)
    ensures r.outcome.Fetched? && n >= 0 ==>
              && r.outcome.deliveries == Collected(remote, r.requests)[..Min(n, |Collected(remote, r.requests)|)]
              && (|r.outcome.deliveries| < n ==> Exhausted(Fetch(remote, r.requests[|r.requests| - 1]).page))
    ensures r.outcome.Failed? ==>
              |r.requests| > 0 && Fetch(remote, r.requests[|r.requests| - 1]) == Abort(r.outcome.err)
  {
    var r := Paginate(remote, BaseUrl(c, filter), n, [], fuel);
    PaginateFollowsCursors(remote, BaseUrl(c, filter), n, [], fuel);
    match r.outcome
    case Fetched(_) =>
      PaginateSucceeds(remote, BaseUrl(c, filter), n, [], fuel);
      assert [] + Collected(remote, r.requests) == Collected(remote, r.requests);
      r
    case Failed(_) =>
      PaginateFails(remote, BaseUrl(c, filter), n, [], fuel);
      r
    case OutOfFuel =>
      if fuel > 0 then
        PaginateExhausts(remote, BaseUrl(c, filter), n, [], fuel);
        r
      else r
  }

  /** The ongoing-only listing: its first request asks for `filter=ongoing`. */
  function GetOngoingDeliveries(c: Client, remote: Remote, n: int, fuel: nat): (r: Run)
    requires n >= AllDeliveries
    ensures fuel > 0 ==>
              |r.requests| > 0 && r.requests[0] == "/v1/customers/" + c.escape(c.customerId) + "/deliveries?filter=" + c.escape("ongoing")
    ensures FollowsCursors(remote, n, [], r.requests)
    ensures r.outcome.Fetched? ==>
              && |r.requests| > 0
              && Fetch(remote, r.requests[|r.requests| - 1]).Page?
              && r.outcome.deliveries == Truncate(Collected(remote, r.requests), n)
    ensures r.outcome.Failed? ==>
              |r.requests| > 0 && Fetch(remote, r.requests[|r.requests| - 1]) == Abort(r.outcome.err)
  {
    GetDeliveries(c, remote, OngoingFilter, n, fuel)
  }

  /** A request that did not yield a page is the last one, and its error is
      the call's result: nothing accumulated before it is returned. */
  lemma ErrorEndsListing(c: Client, remote: Remote, filter: string, n: int, fuel: nat, i: nat)
    requires n >= AllDeliveries
    requires i < |GetDeliveries(c, remote, filter, n, fuel).requests|
    requires !Fetch(remote, GetDeliveries(c, remote, filter, n, fuel).requests[i]).Page?
    ensures var r := GetDeliveries(c, remote, filter, n, fuel);
            i == |r.requests| - 1 && r.outcome == Failed(Fetch(remote, r.requests[i]).err)
  {
    var r := GetDeliveries(c, remote, filter, n, fuel);
    if i < |r.requests| - 1 {
      EarlierRequestsArePages(remote, n, [], r.requests, i);
    }
    if r.outcome.OutOfFuel? {
      PaginateExhausts(remote, BaseUrl(c, filter), n, [], fuel);
    } else if r.outcome.Failed? {
      PaginateFails(remote, BaseUrl(c, filter), n, [], fuel);
    }
  }

  /** With a finite limit, the loop never asks for more pages than records it
      still needs (and always for at least one). */
  lemma {:induction false} LimitBoundsRequests(remote: Remote, u: string, n: int, acc: seq<Delivery>, fuel: nat)
    requires n >= 0
    ensures |Paginate(remote, u, n, acc, fuel).requests| <= Max(1, n - |acc|)
    decreases fuel
  {
    if fuel > 0 && Fetch(remote, u).Page? {
      var p := Fetch(remote, u).page;
      var acc' := acc + p.data;
      if !Stops(n, |acc'|, p) {
        LimitBoundsRequests(remote, p.nextHref, n, acc', fuel - 1);
      }
    }
  }

  /** With a finite limit, `Max(1, n)` requests always suffice: the loop
      terminates whatever the server sends. */
  lemma {:induction false} LimitedListingTerminates(remote: Remote, u: string, n: int, acc: seq<Delivery>, fuel: nat)
    requires n >= 0
    requires fuel >= Max(1, n - |acc|)
    ensures !Paginate(remote, u, n, acc, fuel).outcome.OutOfFuel?
    decreases fuel
  {
    if Fetch(remote, u).Page? {
      var p := Fetch(remote, u).page;
      var acc' := acc + p.data;
      if !Stops(n, |acc'|, p) {
        LimitedListingTerminates(remote, p.nextHref, n, acc', fuel - 1);
      }
    }
  }

  /** Fuel only bounds the model: once a run finishes, more fuel changes
      nothing. */
  lemma {:induction false} MoreFuelSameRun(remote: Remote, u: string, n: int, acc: seq<Delivery>, fuel: nat, more: nat)
    requires n >= AllDeliveries
    requires fuel <= more
    requires !Paginate(remote, u, n, acc, fuel).outcome.OutOfFuel?
    ensures Paginate(remote, u, n, acc, more) == Paginate(remote, u, n, acc, fuel)
    decreases fuel
  {
    if Fetch(remote, u).Page? {
      var p := Fetch(remote, u).page;
      var acc' := acc + p.data;
      if !Stops(n, |acc'|, p) {
        MoreFuelSameRun(remote, p.nextHref, n, acc', fuel - 1, more - 1);
      }
    }
  }

  /** A finite limit returns the first `n` records of the unlimited listing,
      with no more requests than it. */
  lemma {:induction false} LimitIsPrefixOfAll(remote: Remote, u: string, n: int, acc: seq<Delivery>, fuel: nat)
    requires n >= 0
    requires Paginate(remote, u, AllDeliveries, acc, fuel).outcome.Fetched?
    ensures var all := Paginate(remote, u, AllDeliveries, acc, fuel);
            var some := Paginate(remote, u, n, acc, fuel);
            && some.outcome == Fetched(all.outcome.deliveries[..Min(n, |all.outcome.deliveries|)])
            && |some.requests| <= |all.requests|
    decreases fuel
  {
    var p := Fetch(remote, u).page;
    var acc' := acc + p.data;
    if !Stops(AllDeliveries, |acc'|, p) {
      var rest := Paginate(remote, p.nextHref, AllDeliveries, acc', fuel - 1);
      PaginateSucceeds(remote, p.nextHref, AllDeliveries, acc', fuel - 1);
      var all := rest.outcome.deliveries;
      assert all == acc' + Collected(remote, rest.requests);
      if Stops(n, |acc'|, p) {
        assert |acc'| >= n;
        assert Truncate(acc', n) == acc'[..n] == all[..n];
      } else {
        LimitIsPrefixOfAll(remote, p.nextHref, n, acc', fuel - 1);
      }
    }
  }

  /** Without a limit, a page whose cursor points back at itself and carries
      records keeps the loop going for as long as any fuel remains: the
      empty-page check does not catch a cursor cycle. */
  lemma {:induction false} CursorCycleNeverEnds(remote: Remote, u: string, acc: seq<Delivery>, fuel: nat)
    requires Fetch(remote, u).Page?
    requires u != "" && Fetch(remote, u).page.nextHref == u && Fetch(remote, u).page.data != []
    ensures Paginate(remote, u, AllDeliveries, acc, fuel).outcome == OutOfFuel
    ensures Paginate(remote, u, AllDeliveries, acc, fuel).requests == seq(fuel, i => u)
    decreases fuel
  {
    if fuel > 0 {
      var acc' := acc + Fetch(remote, u).page.data;
      CursorCycleNeverEnds(remote, u, acc', fuel - 1);
      assert [u] + seq(fuel - 1, i => u) == seq(fuel, i => u);
    }
  }

  /** A server holding three pages of two records: the base URL answers
      with the first page, whose cursor is "/p2", whose page points to "/p3",
      whose cursor is empty. */
  function ThreePageServer(d: seq<Delivery>): Remote
    requires |d| == 6
  {
    Remote(
      u => Answered(Http.Response(200, "200 OK", if u == "/p2" then [2] else if u == "/p3" then [3] else [1])),
      b => if b == [1] then Success(Deliveries("list", "", "/p2", 6, d[0..2]))
           else if b == [2] then Success(Deliveries("list", "", "/p3", 6, d[2..4]))
           else Success(Deliveries("list", "", "", 6, d[4..6])),
      b => ApiErrors.NoFields)
  }

  /** Fetching everything from three pages of two issues three requests and
      returns the six records in server order. */
  lemma ThreePagesOfTwo(c: Client, d: seq<Delivery>)
    requires |d| == 6
    ensures GetDeliveries(c, ThreePageServer(d), AllFilter, AllDeliveries, 3)
         == Run(Fetched(d), [BaseUrl(c, AllFilter), "/p2", "/p3"])
  {
    var remote := ThreePageServer(d);
    var base := BaseUrl(c, AllFilter);
    assert base[0..3] == "/v1";
    assert base != "/p2" && base != "/p3";
    var p1 := Deliveries("list", "", "/p2", 6, d[0..2]);
    var p2 := Deliveries("list", "", "/p3", 6, d[2..4]);
    var p3 := Deliveries("list", "", "", 6, d[4..6]);
    assert Fetch(remote, base) == Page(p1);
    assert Fetch(remote, "/p2") == Page(p2);
    assert Fetch(remote, "/p3") == Page(p3);
    assert Paginate(remote, "/p3", AllDeliveries, d[0..2] + d[2..4], 1)
        == Run(Fetched(d[0..2] + d[2..4] + d[4..6]), ["/p3"]);
    assert Paginate(remote, "/p2", AllDeliveries, d[0..2], 2)
        == Run(Fetched(d[0..2] + d[2..4] + d[4..6]), ["/p2", "/p3"]);
    assert [] + d[0..2] == d[0..2];
    assert d[0..2] + d[2..4] + d[4..6] == d;
  }

  /** The connection events of one iteration: the GET (answered or not), the
      reading of a response body, and its close. */
  datatype IoEvent = Get(url: string, answered: bool) | ReadBody | CloseBody

  /** What one iteration does on the connection, branch by branch as `Fetch`
      classifies the reply: no response leaves nothing to close; a non-200
      body is read by `NewError` and closed by the deferred close as the call
      returns; a 200 body is read by the page decoder and closed explicitly,
      whether or not it decoded. */
  function Exchange(remote: Remote, u: string): seq<IoEvent>
  {
    match remote.get(u)
    case NoResponse(_) => [Get(u, false)]
    case Answered(resp) =>
      if resp.statusCode != Http.StatusOK then [Get(u, true), ReadBody, CloseBody]
      else
        match remote.decodePage(resp.body)
        case Failure(_) => [Get(u, true), ReadBody, CloseBody]
        case Success(_) => [Get(u, true), ReadBody, CloseBody]
  }

  /** The connection events of a run that requested `urls`. */
  function IoTrace(remote: Remote, urls: seq<string>): seq<IoEvent>
  {
    if urls == [] then []
    else IoTrace(remote, urls[..|urls| - 1]) + Exchange(remote, urls[|urls| - 1])
  }

  function Opened(e: IoEvent): int
  {
    match e
    case Get(_, answered) => if answered then 1 else 0
    case ReadBody => 0
    case CloseBody => -1
  }

  /** Response bodies received and not yet closed after `events`. */
  function OpenBodies(events: seq<IoEvent>): int
  {
    if events == [] then 0
    else OpenBodies(events[..|events| - 1]) + Opened(events[|events| - 1])
  }

  /** The URLs of the GETs in `events`, in order. */
  function Requested(events: seq<IoEvent>): seq<string>
  {
    if events == [] then []
    else
      var last := events[|events| - 1];
      Requested(events[..|events| - 1]) + (if last.Get? then [last.url] else [])
  }

  lemma {:induction false} OpenBodiesAppend(a: seq<IoEvent>, b: seq<IoEvent>)
    ensures OpenBodies(a + b) == OpenBodies(a) + OpenBodies(b)
    decreases |b|
  {
    if b == [] {
      assert a + b == a;
    } else {
      var b' := b[..|b| - 1];
      assert (a + b)[..|a + b| - 1] == a + b';
      assert (a + b)[|a + b| - 1] == b[|b| - 1];
      OpenBodiesAppend(a, b');
    }
  }

  lemma {:induction false} RequestedAppend(a: seq<IoEvent>, b: seq<IoEvent>)
    ensures Requested(a + b) == Requested(a) + Requested(b)
    decreases |b|
  {
    if b == [] {
      assert a + b == a;
    } else {
      var b' := b[..|b| - 1];
      assert (a + b)[..|a + b| - 1] == a + b';
      assert (a + b)[|a + b| - 1] == b[|b| - 1];
      RequestedAppend(a, b');
    }
  }

  /** The body discipline of a stretch of connection events: at most one body
      open at any point, none open when a request is issued, each body read
      while open, and none left open at the end. */
  predicate Disciplined(t: seq<IoEvent>)
  {
    && OpenBodies(t) == 0
    && (forall k :: 0 <= k <= |t| ==> 0 <= OpenBodies(t[..k]) <= 1)
    && (forall k :: 0 <= k < |t| && t[k].Get? ==> OpenBodies(t[..k]) == 0)
    && (forall k :: 0 <= k < |t| && t[k].ReadBody? ==> OpenBodies(t[..k]) == 1)
  }

  /** A GET that drew no response opens nothing. */
  lemma UnansweredBalanced(u: string)
    ensures Disciplined([Get(u, false)])
    ensures Requested([Get(u, false)]) == [u]
  {
    var e := [Get(u, false)];
    assert e[..0] == [] && e[..1] == e;
  }

  /** A GET whose body is read and then closed. */
  lemma AnsweredBalanced(u: string)
    ensures Disciplined([Get(u, true), ReadBody, CloseBody])
    ensures Requested([Get(u, true), ReadBody, CloseBody]) == [u]
  {
    var e := [Get(u, true), ReadBody, CloseBody];
    assert e[..0] == [];
    assert e[..1] == [Get(u, true)] && e[..1][..0] == [];
    assert e[..2] == [Get(u, true), ReadBody] && e[..2][..1] == e[..1];
    assert e[..3] == e && e[..3][..2] == e[..2];
    assert OpenBodies(e[..1]) == 1;
    assert OpenBodies(e[..2]) == 1;
    assert Requested(e[..1]) == [u];
    assert Requested(e[..2]) == [u];
  }

  /** One exchange keeps the discipline and issues exactly its own GET. */
  lemma ExchangeBalanced(remote: Remote, u: string)
    ensures Disciplined(Exchange(remote, u))
    ensures Requested(Exchange(remote, u)) == [u]
  {
    if remote.get(u).NoResponse? {
      UnansweredBalanced(u);
    } else {
      assert Exchange(remote, u) == [Get(u, true), ReadBody, CloseBody];
      AnsweredBalanced(u);
    }
  }

  /** A prefix of `a + b` is a prefix of `a`, or all of `a` and a prefix of `b`. */
  lemma SplitPrefix(a: seq<IoEvent>, b: seq<IoEvent>, k: nat)
    requires k <= |a + b|
    ensures k <= |a| ==> (a + b)[..k] == a[..k]
    ensures k >= |a| ==> OpenBodies((a + b)[..k]) == OpenBodies(a) + OpenBodies(b[..k - |a|])
  {
    if k >= |a| {
      assert (a + b)[..k] == a + b[..k - |a|];
      OpenBodiesAppend(a, b[..k - |a|]);
    }
  }

  /** An event of `a + b` at position `k`, with the bodies open before it, is
      either `a`'s event at `k` or `b`'s at `k - |a|` after all of `a`. */
  lemma SplitAt(a: seq<IoEvent>, b: seq<IoEvent>, k: nat)
    requires k < |a + b|
    ensures k < |a| ==> (a + b)[k] == a[k] && (a + b)[..k] == a[..k]
    ensures k >= |a| ==> (a + b)[k] == b[k - |a|]
                         && OpenBodies((a + b)[..k]) == OpenBodies(a) + OpenBodies(b[..k - |a|])
  {
    SplitPrefix(a, b, k);
  }

  /** Two disciplined stretches, one after the other, are disciplined. */
  lemma DisciplinedAppend(a: seq<IoEvent>, b: seq<IoEvent>)
    requires Disciplined(a) && Disciplined(b)
    ensures Disciplined(a + b)
  {
    var t := a + b;
    OpenBodiesAppend(a, b);
    forall k | 0 <= k <= |t|
      ensures 0 <= OpenBodies(t[..k]) <= 1
    {
      SplitPrefix(a, b, k);
    }
    forall k | 0 <= k < |t| && t[k].Get?
      ensures OpenBodies(t[..k]) == 0
    {
      SplitAt(a, b, k);
    }
    forall k | 0 <= k < |t| && t[k].ReadBody?
      ensures OpenBodies(t[..k]) == 1
    {
      SplitAt(a, b, k);
    }
  }

  /** The last exchange of a trace follows the trace of the requests before it. */
  lemma IoTraceSnoc(remote: Remote, urls: seq<string>)
    requires urls != []
    ensures IoTrace(remote, urls) == IoTrace(remote, urls[..|urls| - 1]) + Exchange(remote, urls[|urls| - 1])
  {
  }

  /** Over any sequence of requests the body discipline holds. */
  lemma {:induction false} BodiesBalanced(remote: Remote, urls: seq<string>)
    ensures Disciplined(IoTrace(remote, urls))
    decreases |urls|
  {
    if urls == [] {
      assert IoTrace(remote, urls) == [];
    } else {
      var front := urls[..|urls| - 1];
      IoTraceSnoc(remote, urls);
      BodiesBalanced(remote, front);
      ExchangeBalanced(remote, urls[|urls| - 1]);
      DisciplinedAppend(IoTrace(remote, front), Exchange(remote, urls[|urls| - 1]));
    }
  }

  lemma DropLastThenAppend(urls: seq<string>)
    requires urls != []
    ensures urls[..|urls| - 1] + [urls[|urls| - 1]] == urls
  {
  }

  /** Over any sequence of requests the GETs are those requests, in order. */
  lemma {:induction false} GetsFollowRequests(remote: Remote, urls: seq<string>)
    ensures Requested(IoTrace(remote, urls)) == urls
    decreases |urls|
  {
    if urls != [] {
      var front := urls[..|urls| - 1];
      var u := urls[|urls| - 1];
      IoTraceSnoc(remote, urls);
      RequestedAppend(IoTrace(remote, front), Exchange(remote, u));
      GetsFollowRequests(remote, front);
      ExchangeBalanced(remote, u);
      assert Requested(IoTrace(remote, urls)) == front + [u];
      DropLastThenAppend(urls);
    }
  }

  /** The connection discipline of a whole listing call: its GETs are exactly
      the requests it made, in order; at most one response body is open at any
      time; each body is read while open; none is open when a request is
      issued; and every body is closed by the time the call returns, whether it
      returns records or an error. */
  lemma OneBodyAtATime(c: Client, remote: Remote, filter: string, n: int, fuel: nat)
    requires n >= AllDeliveries
    ensures var r := GetDeliveries(c, remote, filter, n, fuel);
            var t := IoTrace(remote, r.requests);
            && OpenBodies(t) == 0
            && Requested(t) == r.requests
            && (forall k :: 0 <= k <= |t| ==> 0 <= OpenBodies(t[..k]) <= 1)
            && (forall k :: 0 <= k < |t| && t[k].Get? ==> OpenBodies(t[..k]) == 0)
            && (forall k :: 0 <= k < |t| && t[k].ReadBody? ==> OpenBodies(t[..k]) == 1)
  {
    BodiesBalanced(remote, GetDeliveries(c, remote, filter, n, fuel).requests);
    GetsFollowRequests(remote, GetDeliveries(c, remote, filter, n, fuel).requests);
  }
}

=== FILE: records.dfy ===
/** The remote job record as the core sees it: only the fields it routes,
    counts or compares. */
module Records {
  import opened Base

  /** An RFC 3339 timestamp, kept as the text the server sent. */
  type Timestamp = string

  /** A delivery job; never written by the core, only observed. */
  datatype Delivery = Delivery(
    kind: string,
    id: string,
    status: string,
    created: Option<Timestamp>,
    complete: bool,
    liveMode: bool)

  /** One page of the deliveries collection. `totalCount` is decoded but never
      consulted; `nextHref` is the opaque cursor, empty at the end. */
  datatype Deliveries = Deliveries(
    objectName: string,
    url: string,
    nextHref: string,
    totalCount: int,
    data: seq<Delivery>)
}

=== FILE: webhook.dfy ===
/** The webhook endpoint: a request classifier feeding four bounded, lossy
    FIFO queues, one per event kind. Each request is one atomic step on the
    queue state. */
module Webhook {
  import opened Base
  import opened Records
  import Http

  const DeliveryStatusEventKind := "event.delivery_status"
  const DeliveryDeadlineEventKind := "event.delivery_deadline"
  const CourierUpdateEventKind := "event.courier_update"
  const DeliveryReturnEventKind := "event.delivery_return"

  /** 64 << 10: the most body bytes a request may have read. */
  const MaxBodyLength := 65536

  /** The capacity every queue gets at construction. */
  const DefaultBufferLength := 512

  const ErrUnsupportedEventKind := "unsupported event kind"

  datatype EventKind = DeliveryStatus | DeliveryDeadline | CourierUpdate | DeliveryReturn

  /** The `kind` tag that selects each variant. */
  function Tag(k: EventKind): string
  {
    match k
    case DeliveryStatus => DeliveryStatusEventKind
    case DeliveryDeadline => DeliveryDeadlineEventKind
    case CourierUpdate => CourierUpdateEventKind
    case DeliveryReturn => DeliveryReturnEventKind
  }

  /** The dispatch on the sniffed tag; `None` for every other string. */
  function KindOf(tag: string): (k: Option<EventKind>)
    ensures k.Some? ==> Tag(k.value) == tag
  {
    if tag == DeliveryStatusEventKind then Some(DeliveryStatus)
    else if tag == DeliveryDeadlineEventKind then Some(DeliveryDeadline)
    else if tag == CourierUpdateEventKind then Some(CourierUpdate)
    else if tag == DeliveryReturnEventKind then Some(DeliveryReturn)
    else None
  }

  /** Exactly the four tags are recognised, each as its own kind. */
  lemma KindOfRecognisesExactlyTheTags(tag: string, k: EventKind)
    ensures KindOf(tag) == Some(k) <==> tag == Tag(k)
  {
  }

  /** Coordinates; the core never inspects them. */
  datatype Location = Location(lat: real, lng: real)

  datatype DeliveryStatusEvent = DeliveryStatusEvent(
    id: string, created: Option<Timestamp>, deliveryId: string, liveMode: bool,
    status: string, delivery: Option<Delivery>)

  datatype DeliveryDeadlineEvent = DeliveryDeadlineEvent(
    id: string, created: Option<Timestamp>, deliveryId: string, liveMode: bool,
    dropoffDeadline: Option<Timestamp>, delivery: Option<Delivery>)

  datatype CourierUpdateEvent = CourierUpdateEvent(
    id: string, created: Option<Timestamp>, deliveryId: string, liveMode: bool,
    location: Location, delivery: Option<Delivery>)

  datatype DeliveryReturnEvent = DeliveryReturnEvent(
    id: string, created: Option<Timestamp>, deliveryId: string, liveMode: bool,
    status: string, delivery: Option<Delivery>)

  /** A decoded event of any kind. */
  datatype Event =
    | StatusChanged(statusEvent: DeliveryStatusEvent)
    | DeadlineChanged(deadlineEvent: DeliveryDeadlineEvent)
    | CourierMoved(courierEvent: CourierUpdateEvent)
    | Returned(returnEvent: DeliveryReturnEvent)
  {
    function Kind(): EventKind
    {
      match this
      case StatusChanged(_) => DeliveryStatus
      case DeadlineChanged(_) => DeliveryDeadline
      case CourierMoved(_) => CourierUpdate
      case Returned(_) => DeliveryReturn
    }
  }

  /** The JSON decoders: the tag-only pass, and one full pass per variant.
      Each yields the value or the decoder's error message. */
  datatype Decoders = Decoders(
    sniff: Bytes -> Result<string, string>,
    status: Bytes -> Result<DeliveryStatusEvent, string>,
    deadline: Bytes -> Result<DeliveryDeadlineEvent, string>,
    courier: Bytes -> Result<CourierUpdateEvent, string>,
    ret: Bytes -> Result<DeliveryReturnEvent, string>)

  /** A request body stream: the bytes it delivers, then end of stream
      (`failure == None`) or a read error. */
  datatype Body = Body(content: Bytes, failure: Option<string>)

  datatype Request = Request(verb: string, body: Body)

  /** The status code and the text written to the response. */
  datatype Response = Response(code: int, text: string)

  /** `http.Error`: the message, newline-terminated, with the given code. */
  function HttpError(message: string, code: int): Response
  {
    Response(code, message + "\n")
  }

  /** A buffered channel: its capacity and the values it holds, oldest first. */
  datatype Queue<T> = Queue(capacity: nat, items: seq<T>)
  {
    predicate Valid()
    {
      |items| <= capacity
    }

    /** A non-blocking send: the value joins the tail when there is room and
        is discarded otherwise. */
    function Offer(v: T): (q: Queue<T>)
      ensures q.capacity == capacity
      ensures |items| < capacity ==> q.items == items + [v]
      ensures |items| >= capacity ==> q == this
      ensures Valid() ==> q.Valid()
    {
      if |items| < capacity then Queue(capacity, items + [v]) else this
    }
  }

  /** The four channels the handler writes and consumers read. */
  datatype Channels = Channels(
    status: Queue<DeliveryStatusEvent>,
    deadline: Queue<DeliveryDeadlineEvent>,
    courier: Queue<CourierUpdateEvent>,
    ret: Queue<DeliveryReturnEvent>)
  {
    predicate Valid()
    {
      status.Valid() && deadline.Valid() && courier.Valid() && ret.Valid()
    }
  }

  /** The events waiting in the queue of kind `k`, oldest first. */
  function Pending(ch: Channels, k: EventKind): (es: seq<Event>)
    ensures forall i :: 0 <= i < |es| ==> es[i].Kind() == k
  {
    match k
    case DeliveryStatus => seq(|ch.status.items|, i requires 0 <= i < |ch.status.items| => StatusChanged(ch.status.items[i]))
    case DeliveryDeadline => seq(|ch.deadline.items|, i requires 0 <= i < |ch.deadline.items| => DeadlineChanged(ch.deadline.items[i]))
    case CourierUpdate => seq(|ch.courier.items|, i requires 0 <= i < |ch.courier.items| => CourierMoved(ch.courier.items[i]))
    case DeliveryReturn => seq(|ch.ret.items|, i requires 0 <= i < |ch.ret.items| => Returned(ch.ret.items[i]))
  }

  function Capacity(ch: Channels, k: EventKind): nat
  {
    match k
    case DeliveryStatus => ch.status.capacity
    case DeliveryDeadline => ch.deadline.capacity
    case CourierUpdate => ch.courier.capacity
    case DeliveryReturn => ch.ret.capacity
  }

  /** Four empty queues of `bufferLength` slots, where `bufferLength` is the
      value the package variable `DefaultBufferLength` (initially 512) holds
      when the webhook is built. A negative length makes the channel
      construction panic, so it is refused. */
  function NewWebhook(bufferLength: int): (ch: Channels)
    requires bufferLength >= 0
    ensures ch.Valid()
    ensures forall k :: Pending(ch, k) == [] && Capacity(ch, k) == bufferLength
  {
    Channels(Queue(bufferLength, []), Queue(bufferLength, []), Queue(bufferLength, []), Queue(bufferLength, []))
  }

  /** Reads the body through a limit of `limit` bytes: a longer body is cut,
      and a read error after the limit is never reached. */
  function ReadLimited(body: Body, limit: nat): (r: Result<Bytes, string>)
    ensures r.Success? ==> r.value == body.content[..Min(limit, |body.content|)]
    ensures r.Failure? <==> |body.content| < limit && body.failure.Some?
    ensures r.Failure? ==> r.error == body.failure.value
  {
    if |body.content| >= limit then Success(body.content[..limit])
    else match body.failure
      case None => Success(body.content)
      case Some(e) => Failure(e)
  }

  /** The second decoding pass, into the variant the tag selected. */
  function DecodeVariant(dec: Decoders, k: EventKind, data: Bytes): (r: Result<Event, string>)
    ensures r.Success? ==> r.value.Kind() == k
    ensures k == DeliveryStatus ==>
              && (r.Success? <==> dec.status(data).Success?)
              && (r.Success? ==> r.value == StatusChanged(dec.status(data).value))
              && (r.Failure? ==> r.error == dec.status(data).error)
    ensures k == DeliveryDeadline ==>
              && (r.Success? <==> dec.deadline(data).Success?)
              && (r.Success? ==> r.value == DeadlineChanged(dec.deadline(data).value))
              && (r.Failure? ==> r.error == dec.deadline(data).error)
    ensures k == CourierUpdate ==>
              && (r.Success? <==> dec.courier(data).Success?)
              && (r.Success? ==> r.value == CourierMoved(dec.courier(data).value))
              && (r.Failure? ==> r.error == dec.courier(data).error)
    ensures k == DeliveryReturn ==>
              && (r.Success? <==> dec.ret(data).Success?)
              && (r.Success? ==> r.value == Returned(dec.ret(data).value))
              && (r.Failure? ==> r.error == dec.ret(data).error)
  {
    match k
    case DeliveryStatus =>
      (match dec.status(data) case Success(v) => Success(StatusChanged(v)) case Failure(e) => Failure(e))
    case DeliveryDeadline =>
      (match dec.deadline(data) case Success(v) => Success(DeadlineChanged(v)) case Failure(e) => Failure(e))
    case CourierUpdate =>
      (match dec.courier(data) case Success(v) => Success(CourierMoved(v)) case Failure(e) => Failure(e))
    case DeliveryReturn =>
      (match dec.ret(data) case Success(v) => Success(Returned(v)) case Failure(e) => Failure(e))
  }

  /** The pure part of the handler: the event a request carries, or the
      response that rejects it. */
  function Admit(dec: Decoders, req: Request): (r: Result<Event, Response>)
    ensures req.verb != "POST" ==> r == Failure(HttpError("Method Not Allowed", Http.StatusMethodNotAllowed))
    ensures r.Failure? && req.verb == "POST" ==> r.error.code == Http.StatusBadRequest
    ensures req.verb == "POST" && ReadLimited(req.body, MaxBodyLength).Failure? ==>
              r == Failure(HttpError(ReadLimited(req.body, MaxBodyLength).error, Http.StatusBadRequest))
    ensures (req.verb == "POST" && ReadLimited(req.body, MaxBodyLength).Success?
             && dec.sniff(ReadLimited(req.body, MaxBodyLength).value).Failure?) ==>
              r == Failure(HttpError(dec.sniff(ReadLimited(req.body, MaxBodyLength).value).error,
                                     Http.StatusBadRequest))
    ensures (req.verb == "POST" && ReadLimited(req.body, MaxBodyLength).Success?
             && dec.sniff(ReadLimited(req.body, MaxBodyLength).value).Success?
             && KindOf(dec.sniff(ReadLimited(req.body, MaxBodyLength).value).value).None?) ==>
              r == Failure(HttpError(ErrUnsupportedEventKind, Http.StatusBadRequest))
    ensures (req.verb == "POST" && ReadLimited(req.body, MaxBodyLength).Success?
             && dec.sniff(ReadLimited(req.body, MaxBodyLength).value).Success?
             && KindOf(dec.sniff(ReadLimited(req.body, MaxBodyLength).value).value).Some?
             && DecodeVariant(dec, KindOf(dec.sniff(ReadLimited(req.body, MaxBodyLength).value).value).value,
                              ReadLimited(req.body, MaxBodyLength).value).Failure?) ==>
              r == Failure(HttpError(
                     DecodeVariant(dec, KindOf(dec.sniff(ReadLimited(req.body, MaxBodyLength).value).value).value,
                                   ReadLimited(req.body, MaxBodyLength).value).error,
                     Http.StatusBadRequest))
    ensures r.Success? ==>
              && req.verb == "POST"
              && ReadLimited(req.body, MaxBodyLength).Success?
              && var data := req.body.content[..Min(MaxBodyLength, |req.body.content|)];
              && dec.sniff(data).Success?
              && KindOf(dec.sniff(data).value) == Some(r.value.Kind())
              && DecodeVariant(dec, r.value.Kind(), data) == Success(r.value)
    ensures (&& req.verb == "POST"
             && (|req.body.content| >= MaxBodyLength || req.body.failure.None?)
             && var data := req.body.content[..Min(MaxBodyLength, |req.body.content|)];
             && dec.sniff(data).Success?
             && KindOf(dec.sniff(data).value).Some?
             && DecodeVariant(dec, KindOf(dec.sniff(data).value).value, data).Success?)
            ==> r.Success?
  {
    if req.verb != "POST" then Failure(HttpError("Method Not Allowed", Http.StatusMethodNotAllowed))
    else match ReadLimited(req.body, MaxBodyLength)
      case Failure(e) => Failure(HttpError(e, Http.StatusBadRequest))
      case Success(data) =>
        match dec.sniff(data)
        case Failure(e) => Failure(HttpError(e, Http.StatusBadRequest))
        case Success(tag) =>
          match KindOf(tag)
          case None => Failure(HttpError(ErrUnsupportedEventKind, Http.StatusBadRequest))
          case Some(k) =>
            match DecodeVariant(dec, k, data)
            case Failure(e) => Failure(HttpError(e, Http.StatusBadRequest))
            case Success(ev) => Success(ev)
  }

  /** The try-send of an event into its own kind's queue. */
  function Deliver(ch: Channels, ev: Event): (ch': Channels)
    ensures forall k :: Capacity(ch', k) == Capacity(ch, k)
    ensures forall k :: k != ev.Kind() ==> Pending(ch', k) == Pending(ch, k)
    ensures |Pending(ch, ev.Kind())| < Capacity(ch, ev.Kind()) ==>
              Pending(ch', ev.Kind()) == Pending(ch, ev.Kind()) + [ev]
    ensures |Pending(ch, ev.Kind())| >= Capacity(ch, ev.Kind()) ==> ch' == ch
    ensures ch.Valid() ==> ch'.Valid()
  {
    match ev
    case StatusChanged(v) => ch.(status := ch.status.Offer(v))
    case DeadlineChanged(v) => ch.(deadline := ch.deadline.Offer(v))
    case CourierMoved(v) => ch.(courier := ch.courier.Offer(v))
    case Returned(v) => ch.(ret := ch.ret.Offer(v))
  }

  /** One request handled atomically: the response and the queues after it. */
  function Handle(dec: Decoders, ch: Channels, req: Request): (r: (Response, Channels))
    ensures req.verb != "POST" ==> r.0.code == Http.StatusMethodNotAllowed && r.1 == ch
    ensures r.0.code == Http.StatusOK <==> Admit(dec, req).Success?
    ensures r.0.code != Http.StatusOK ==> r.1 == ch
    ensures Admit(dec, req).Failure? ==> r == (Admit(dec, req).error, ch)
    ensures r.0.code in {Http.StatusOK, Http.StatusBadRequest, Http.StatusMethodNotAllowed}
    ensures Admit(dec, req).Success? ==> r.0 == Response(Http.StatusOK, "") && r.1 == Deliver(ch, Admit(dec, req).value)
    ensures ch.Valid() ==> r.1.Valid()
    ensures Admit(dec, req).Success? && |Pending(ch, Admit(dec, req).value.Kind())| >= Capacity(ch, Admit(dec, req).value.Kind()) ==>
              r == (Response(Http.StatusOK, ""), ch)
  {
    match Admit(dec, req)
    case Failure(resp) => (resp, ch)
    case Success(ev) => (Response(Http.StatusOK, ""), Deliver(ch, ev))
  }

  /** A POST whose capped body reads, sniffs to the tag of kind `k` and decodes
      as that variant is answered 200, and the decoded event joins the tail of
      kind `k`'s queue when there is room; it is dropped otherwise. */
  lemma AcceptedEventIsQueued(dec: Decoders, ch: Channels, req: Request, k: EventKind)
    requires req.verb == "POST"
    requires ReadLimited(req.body, MaxBodyLength).Success?
    requires dec.sniff(ReadLimited(req.body, MaxBodyLength).value) == Success(Tag(k))
    requires DecodeVariant(dec, k, ReadLimited(req.body, MaxBodyLength).value).Success?
    ensures var ev := DecodeVariant(dec, k, ReadLimited(req.body, MaxBodyLength).value).value;
            var r := Handle(dec, ch, req);
            && r.0 == Response(Http.StatusOK, "")
            && (|Pending(ch, k)| < Capacity(ch, k) ==> Pending(r.1, k) == Pending(ch, k) + [ev])
            && (|Pending(ch, k)| >= Capacity(ch, k) ==> r.1 == ch)
            && (forall k' :: k' != k ==> Pending(r.1, k') == Pending(ch, k'))
  {
  }

  /** The same, for a courier update: the courier decoder's value reaches the
      courier queue, wrapped as a courier event. */
  lemma CourierUpdateIsQueued(dec: Decoders, ch: Channels, req: Request, v: CourierUpdateEvent)
    requires req.verb == "POST"
    requires ReadLimited(req.body, MaxBodyLength).Success?
    requires dec.sniff(ReadLimited(req.body, MaxBodyLength).value) == Success(CourierUpdateEventKind)
    requires dec.courier(ReadLimited(req.body, MaxBodyLength).value) == Success(v)
    requires |Pending(ch, CourierUpdate)| < Capacity(ch, CourierUpdate)
    ensures Handle(dec, ch, req).0 == Response(Http.StatusOK, "")
    ensures Pending(Handle(dec, ch, req).1, CourierUpdate) == Pending(ch, CourierUpdate) + [CourierMoved(v)]
  {
    AcceptedEventIsQueued(dec, ch, req, CourierUpdate);
  }

  /** A body longer than the cap is cut to the cap, not rejected: the request
      is handled as if it carried only its first `MaxBodyLength` bytes. */
  lemma LongBodyIsCut(dec: Decoders, ch: Channels, verb: string, content: Bytes, failure: Option<string>)
    requires |content| >= MaxBodyLength
    ensures Handle(dec, ch, Request(verb, Body(content, failure)))
         == Handle(dec, ch, Request(verb, Body(content[..MaxBodyLength], None)))
  {
    assert content[..MaxBodyLength][..MaxBodyLength] == content[..MaxBodyLength];
  }

  /** A well-formed tag that is none of the four kinds is refused with
      "unsupported event kind", and no queue changes. */
  lemma UnknownKindRejected(dec: Decoders, ch: Channels, req: Request, tag: string)
    requires req.verb == "POST"
    requires ReadLimited(req.body, MaxBodyLength).Success?
    requires dec.sniff(ReadLimited(req.body, MaxBodyLength).value) == Success(tag)
    requires tag != DeliveryStatusEventKind && tag != DeliveryDeadlineEventKind
    requires tag != CourierUpdateEventKind && tag != DeliveryReturnEventKind
    ensures Handle(dec, ch, req) == (Response(Http.StatusBadRequest, "unsupported event kind\n"), ch)
  {
    assert KindOf(tag) == None;
    assert Admit(dec, req) == Failure(HttpError(ErrUnsupportedEventKind, Http.StatusBadRequest));
    assert ErrUnsupportedEventKind + "\n" == "unsupported event kind\n";
  }

  /** A consumer's receive on the queue of kind `k`, polling: the oldest
      event, or nothing when the queue is empty. */
  function Dequeue(ch: Channels, k: EventKind): (r: (Option<Event>, Channels))
    ensures Pending(ch, k) == [] ==> r.0 == None && r.1 == ch
    ensures Pending(ch, k) != [] ==> r.0 == Some(Pending(ch, k)[0]) && Pending(r.1, k) == Pending(ch, k)[1..]
    ensures forall k' :: k' != k ==> Pending(r.1, k') == Pending(ch, k')
    ensures forall k' :: Capacity(r.1, k') == Capacity(ch, k')
    ensures ch.Valid() ==> r.1.Valid()
  {
    match k
    case DeliveryStatus =>
      if ch.status.items == [] then (None, ch)
      else (Some(StatusChanged(ch.status.items[0])), ch.(status := ch.status.(items := ch.status.items[1..])))
    case DeliveryDeadline =>
      if ch.deadline.items == [] then (None, ch)
      else (Some(DeadlineChanged(ch.deadline.items[0])), ch.(deadline := ch.deadline.(items := ch.deadline.items[1..])))
    case CourierUpdate =>
      if ch.courier.items == [] then (None, ch)
      else (Some(CourierMoved(ch.courier.items[0])), ch.(courier := ch.courier.(items := ch.courier.items[1..])))
    case DeliveryReturn =>
      if ch.ret.items == [] then (None, ch)
      else (Some(Returned(ch.ret.items[0])), ch.(ret := ch.ret.(items := ch.ret.items[1..])))
  }

  /** One thing that can happen to the queues: a request arrives, or a
      consumer receives from one queue. */
  datatype Action = Post(req: Request) | Receive(kind: EventKind)

  /** The queues after a run of actions, the events the handler enqueued
      and the events consumers received, each in order. */
  datatype Trace = Trace(final: Channels, accepted: seq<Event>, received: seq<Event>)

  /** The events `Post(req)` enqueues into `ch`: its event when there is room. */
  function Enqueued(dec: Decoders, ch: Channels, req: Request): seq<Event>
  {
    match Admit(dec, req)
    case Success(ev) => if |Pending(ch, ev.Kind())| < Capacity(ch, ev.Kind()) then [ev] else []
    case Failure(_) => []
  }

  function Replay(dec: Decoders, ch: Channels, actions: seq<Action>): Trace
    decreases |actions|
  {
    if actions == [] then Trace(ch, [], [])
    else
      match actions[0]
      case Post(req) =>
        var t := Replay(dec, Handle(dec, ch, req).1, actions[1..]);
        Trace(t.final, Enqueued(dec, ch, req) + t.accepted, t.received)
      case Receive(k) =>
        var r := Dequeue(ch, k);
        var t := Replay(dec, r.1, actions[1..]);
        Trace(t.final, t.accepted, (if r.0.Some? then [r.0.value] else []) + t.received)
  }

  /** The events of kind `k`, in order. */
  function OfKind(es: seq<Event>, k: EventKind): seq<Event>
  {
    if es == [] then [] else (if es[0].Kind() == k then [es[0]] else []) + OfKind(es[1..], k)
  }

  lemma {:induction false} OfKindAppend(a: seq<Event>, b: seq<Event>, k: EventKind)
    ensures OfKind(a + b, k) == OfKind(a, k) + OfKind(b, k)
    decreases |a|
  {
    if a != [] {
      assert (a + b)[1..] == a[1..] + b;
      OfKindAppend(a[1..], b, k);
    } else {
      assert a + b == b;
    }
  }

  /** What one request adds to the queue of kind `k`. */
  lemma PostStep(dec: Decoders, ch: Channels, req: Request, k: EventKind)
    ensures Pending(Handle(dec, ch, req).1, k) == Pending(ch, k) + OfKind(Enqueued(dec, ch, req), k)
  {
    var e := Enqueued(dec, ch, req);
    if e != [] {
      assert e[1..] == [];
    }
  }

  lemma OfKindSingle(v: Event, k: EventKind)
    ensures OfKind([v], k) == if v.Kind() == k then [v] else []
  {
    assert [v][1..] == [];
  }

  /** What one receive on kind `k'` takes from the queue of kind `k`. */
  lemma ReceiveStep(ch: Channels, k': EventKind, k: EventKind)
    ensures var r := Dequeue(ch, k');
            OfKind(if r.0.Some? then [r.0.value] else [], k) + Pending(r.1, k) == Pending(ch, k)
  {
    var r := Dequeue(ch, k');
    if r.0.Some? {
      var v := r.0.value;
      OfKindSingle(v, k);
      if k == k' {
        assert v == Pending(ch, k)[0];
        assert Pending(ch, k) == [v] + Pending(ch, k)[1..];
      } else {
        assert Pending(r.1, k) == Pending(ch, k);
      }
    } else {
      assert r.1 == ch;
    }
  }

  /** Chains one step's balance with the balance of the rest of the run. */
  lemma Rebalance<T>(before: seq<T>, middle: seq<T>, after: seq<T>,
                     acc1: seq<T>, acc2: seq<T>, rec1: seq<T>, rec2: seq<T>)
    requires rec1 + middle == before + acc1
    requires rec2 + after == middle + acc2
    ensures rec1 + rec2 + after == before + acc1 + acc2
  {
    calc {
      rec1 + rec2 + after;
      rec1 + (rec2 + after);
      rec1 + (middle + acc2);
      (rec1 + middle) + acc2;
      before + acc1 + acc2;
    }
  }

  /** The balance `FifoPerKind` states, for one run. */
  predicate Balanced(dec: Decoders, ch: Channels, actions: seq<Action>, k: EventKind)
  {
    var t := Replay(dec, ch, actions);
    OfKind(t.received, k) + Pending(t.final, k) == Pending(ch, k) + OfKind(t.accepted, k)
  }

  /** A request followed by a balanced run is balanced. */
  lemma PostThenBalanced(dec: Decoders, ch: Channels, actions: seq<Action>, req: Request, k: EventKind)
    requires actions != [] && actions[0] == Post(req)
    requires Balanced(dec, Handle(dec, ch, req).1, actions[1..], k)
    ensures Balanced(dec, ch, actions, k)
  {
    var ch' := Handle(dec, ch, req).1;
    var t := Replay(dec, ch', actions[1..]);
    var e := Enqueued(dec, ch, req);
    ReplayPost(dec, ch, actions, req);
    PostStep(dec, ch, req, k);
    EnqueueBalance(Pending(ch, k), Pending(ch', k), Pending(t.final, k), e, t.accepted, t.received, k);
  }

  /** Enqueueing `e` and then running a balanced remainder balances the whole. */
  lemma EnqueueBalance(p0: seq<Event>, p1: seq<Event>, pf: seq<Event>,
                       e: seq<Event>, acc: seq<Event>, rec: seq<Event>, k: EventKind)
    requires p1 == p0 + OfKind(e, k)
    requires OfKind(rec, k) + pf == p1 + OfKind(acc, k)
    ensures OfKind(rec, k) + pf == p0 + OfKind(e + acc, k)
  {
    OfKindAppend(e, acc, k);
    SeqAssociate(p0, OfKind(e, k), OfKind(acc, k));
  }

  lemma SeqAssociate<T>(a: seq<T>, b: seq<T>, c: seq<T>)
    ensures (a + b) + c == a + (b + c)
  {
  }

  /** A run that starts with a request: that request's step, then the rest. */
  lemma ReplayPost(dec: Decoders, ch: Channels, actions: seq<Action>, req: Request)
    requires actions != [] && actions[0] == Post(req)
    ensures var t := Replay(dec, Handle(dec, ch, req).1, actions[1..]);
            Replay(dec, ch, actions) == Trace(t.final, Enqueued(dec, ch, req) + t.accepted, t.received)
  {
  }

  /** A receive followed by a balanced run is balanced. */
  lemma ReceiveThenBalanced(dec: Decoders, ch: Channels, actions: seq<Action>, k': EventKind, k: EventKind)
    requires actions != [] && actions[0] == Receive(k')
    requires Balanced(dec, Dequeue(ch, k').1, actions[1..], k)
    ensures Balanced(dec, ch, actions, k)
  {
    var r := Dequeue(ch, k');
    var t := Replay(dec, r.1, actions[1..]);
    var got := if r.0.Some? then [r.0.value] else [];
    assert Replay(dec, ch, actions) == Trace(t.final, t.accepted, got + t.received);
    ReceiveStep(ch, k', k);
    OfKindAppend(got, t.received, k);
    Rebalance(Pending(ch, k), Pending(r.1, k), Pending(t.final, k),
              [], OfKind(t.accepted, k), OfKind(got, k), OfKind(t.received, k));
  }

  /** Per kind, consumers receive exactly the accepted events, in the order
      they were accepted: what was waiting plus what was accepted is what was
      received plus what still waits. */
  lemma {:induction false} FifoPerKind(dec: Decoders, ch: Channels, actions: seq<Action>, k: EventKind)
    ensures var t := Replay(dec, ch, actions);
            OfKind(t.received, k) + Pending(t.final, k) == Pending(ch, k) + OfKind(t.accepted, k)
    decreases |actions|
  {
    if actions == [] {
      assert Replay(dec, ch, actions) == Trace(ch, [], []);
    } else {
      match actions[0]
      case Post(req) =>
        FifoPerKind(dec, Handle(dec, ch, req).1, actions[1..], k);
        PostThenBalanced(dec, ch, actions, req, k);
      case Receive(k') =>
        FifoPerKind(dec, Dequeue(ch, k').1, actions[1..], k);
        ReceiveThenBalanced(dec, ch, actions, k', k);
    }
  }

  /** No run of requests and receives ever overfills a queue. */
  lemma {:induction false} ReplayKeepsBounds(dec: Decoders, ch: Channels, actions: seq<Action>)
    requires ch.Valid()
    ensures Replay(dec, ch, actions).final.Valid()
    decreases |actions|
  {
    if actions != [] {
      match actions[0]
      case Post(req) =>
        ReplayKeepsBounds(dec, Handle(dec, ch, req).1, actions[1..]);
      case Receive(k) =>
        ReplayKeepsBounds(dec, Dequeue(ch, k).1, actions[1..]);
    }
  }
}
